=== FILE: README.md ===
# ZooKeeperClient, modelled in Dafny

This project models the resilient ZooKeeper client of kiji-schema
(`org.kiji.schema.layout.impl.ZooKeeperClient`) as pure functions over
immutable values. The client does four things:

- **Reference-counted lifecycle** (`lifecycle.dfy`). A client is constructed
  with one reference. `open` creates the first session handle, `retain` and
  `release` move the count, and the release that brings the count to zero
  calls `close`. `isOpen` is `opened && !closed`. Every
  `Preconditions.checkState` guard becomes an `IllegalState` outcome. When
  the Java code changes a field before the guard that rejects the call, the
  returned client keeps that change.
- **Session notifications** (`session_watcher.dfy`). `SessionWatcher.process`
  becomes a transition from (client, event) to a new client or a thrown
  exception. Events that are not session events are ignored, and so are the
  non-actionable states. A lost or expired session is recreated unless the
  client is closed. Unknown states are fatal.
- **Live-handle acquisition and the retry loop** (`handle_acquisition.dfy`,
  `retry_policy.dfy`). The wait of `getZKClient` is modelled as a sequence of
  wake-ups. The loop shared by `create`, both `exists` overloads, `getData`,
  `setData`, `getChildren` and `delete` is modelled once, over the outcomes
  of its successive attempts. Connection loss, session expiry and session
  migration are retried. Every other outcome reaches the caller unchanged.
- **Recursive node creation** (`namespace.dfy`). A namespace is a set of
  paths. A path is a sequence of components, the root is the empty sequence,
  and `getParentFile` drops the last component.

`client_trace.dfy` runs sequences of open, retain, release and notification
calls against one client. It proves the reference-counting property:
starting from an open client, a run in which no call throws calls `close()`
at most once, and exactly once if the count reaches zero, at the call that
first brings it there.

Collaborators are replaced by parameters, as follows:

- The ZooKeeper library becomes the attempt outcomes the retry loop sees.
- Whether a handle reports itself alive is a boolean attached to each
  observation.
- The namespace is a set of paths, which `CreateNode` updates the way
  ZooKeeper's persistent `create` does.
- Threads and the monitor become sequential steps.

Three places where the code falls short of its evident intent are written
down as findings below. For each one the model keeps the code as written
and adds a corrected member. The trace runner `Run` uses the corrected
members, and `RunAsWritten` uses the members as the code has them. A run of
the code as written in which no call throws coincides with the corrected
run, so the reference-counting theorems hold for both.

## Model

| member | source | states |
|---|---|---|
| Lifecycle.New | kiji-schema/src/main/java/org/kiji/schema/layout/impl/ZooKeeperClient.java:167-171 | A new client holds exactly one reference, is neither opened nor closed (so it is not open), and has no session handle. |
| Lifecycle.IsOpenAcrossLifecycle | kiji-schema/src/main/java/org/kiji/schema/layout/impl/ZooKeeperClient.java:188-190 | IsOpen is defined as opened && !closed (line 189). A new client is not open. It is open after open. It is not open once the last release has closed it, and no later open or retain makes a closed client open again. |
| Lifecycle.CreateHandle | kiji-schema/src/main/java/org/kiji/schema/layout/impl/ZooKeeperClient.java:199-206 | createZKClient puts a new session object in the slot, distinct from every handle created before. The flags and the count are untouched. |
| Lifecycle.Open | kiji-schema/src/main/java/org/kiji/schema/layout/impl/ZooKeeperClient.java:176-181 | Open succeeds iff the client was never opened and has no handle. On success it is open with a fresh handle. When it is refused, the only change is that the opened flag is set. |
| Lifecycle.OpenTwiceFails | kiji-schema/src/main/java/org/kiji/schema/layout/impl/ZooKeeperClient.java:176-178 | After a successful open, a second open is refused and changes nothing. |
| Lifecycle.Close | kiji-schema/src/main/java/org/kiji/schema/layout/impl/ZooKeeperClient.java:280-297 | Close succeeds iff the client is open. It then sets the closed flag and empties the handle slot, whether or not a handle was there. Otherwise it throws and changes nothing. |
| Lifecycle.CloseTwiceFails | kiji-schema/src/main/java/org/kiji/schema/layout/impl/ZooKeeperClient.java:280-283 | After a successful close, a second close is refused and changes nothing. |
| Lifecycle.Retain | kiji-schema/src/main/java/org/kiji/schema/layout/impl/ZooKeeperClient.java:256-262 | As written: retain is accepted iff the count before the call was at least 1. The count rises by one even when retain is refused. Nothing else changes. |
| Lifecycle.RetainChecked | kiji-schema/src/main/java/org/kiji/schema/layout/impl/ZooKeeperClient.java:256-262 | Corrected: an accepted retain raises the count by one. A refused retain leaves the client as it was. |
| Lifecycle.RetainRevivesReleasedClient | kiji-schema/src/main/java/org/kiji/schema/layout/impl/ZooKeeperClient.java:256-262 | As written, a second retain on a released client succeeds and returns a closed client with count 2. |
| Lifecycle.RetainCheckedAfterZeroAlwaysFails | kiji-schema/src/main/java/org/kiji/schema/layout/impl/ZooKeeperClient.java:256-262 | Corrected: at count zero a retain is refused without changing the client, and so is the next one. |
| Lifecycle.Release | kiji-schema/src/main/java/org/kiji/schema/layout/impl/ZooKeeperClient.java:266-274 | As written: the count always drops by one. Release is accepted iff the new count is positive, or it is zero and the client is open. Reaching zero closes an open client. Any other release changes only the count. |
| Lifecycle.ReleaseChecked | kiji-schema/src/main/java/org/kiji/schema/layout/impl/ZooKeeperClient.java:266-274 | Corrected: below one reference, release is refused without changing the client. A non-negative count therefore never goes negative. The client is closed exactly by the release from count 1 of an opened client. |
| Lifecycle.ReleaseDrivesCountNegative | kiji-schema/src/main/java/org/kiji/schema/layout/impl/ZooKeeperClient.java:266-270 | As written, releasing a client whose count is already zero throws, but leaves the count at -1. |
| Lifecycle.ReleaseUndoesRetain | kiji-schema/src/main/java/org/kiji/schema/layout/impl/ZooKeeperClient.java:256-274 | Release is the inverse of retain: on a client holding a reference, a retain followed by a release returns the original client. |
| Lifecycle.LastReleaseOfUnopenedClientFails | kiji-schema/src/main/java/org/kiji/schema/layout/impl/ZooKeeperClient.java:266-283 | Releasing the only reference of a never-opened client reaches close before open, which is refused. The count is left at 0 and the client is not closed. |
| SessionWatcher.Process | kiji-schema/src/main/java/org/kiji/schema/layout/impl/ZooKeeperClient.java:75-123 | As written. Events that are not session events, and the AuthFailed, ConnectedReadOnly and SaslAuthenticated states, change nothing. Unknown states throw the unexpected-state RuntimeException. A SyncConnected notification returns normally and changes nothing, also on a closed client with an empty slot, except that on an unclosed client with an empty slot the log line's read of the slot throws. The flags and the count never change. A handle is created iff a lost session reaches an open client that holds a handle. A lost session on a never-opened client that holds a handle fails the opened checkState (IllegalState) and changes nothing. A read of an empty handle slot throws exactly in the cases the log lines dereference it. |
| SessionWatcher.ProcessGuarded | kiji-schema/src/main/java/org/kiji/schema/layout/impl/ZooKeeperClient.java:87-122 | Corrected: an event throws iff it is an unknown state, or a lost session on a client never opened. The exception is the unexpected-state RuntimeException for an unknown state (line 120) and IllegalState for the opened check (line 110). A lost session creates a fresh handle iff the client is open. Otherwise the client is unchanged, so a closed client never gets a handle back. |
| SessionWatcher.ProcessAgreesWhileHandlePresent | kiji-schema/src/main/java/org/kiji/schema/layout/impl/ZooKeeperClient.java:106-117 | The as-written and corrected handlers agree whenever the handle slot is filled, and so on every reachable open client. |
| SessionWatcher.ExpiredAfterCloseDereferencesEmptySlot | kiji-schema/src/main/java/org/kiji/schema/layout/impl/ZooKeeperClient.java:106-116 | As written, an Expired event on a client closed by its last release throws a null dereference. The corrected handler ignores it. |
| HandleAcquisition.Poll | kiji-schema/src/main/java/org/kiji/schema/layout/impl/ZooKeeperClient.java:222-240 | The wait ends at the first wake-up that finds the client closed (refused), a live handle (returned) or an interrupted wait (RuntimeInterruptedException), with that outcome. It keeps waiting iff no wake-up so far was any of these. The closed check comes first, so a closed client is refused even if its handle is alive. |
| HandleAcquisition.GetZKClient | kiji-schema/src/main/java/org/kiji/schema/layout/impl/ZooKeeperClient.java:216-241 | A client that is not opened, or is already closed, is refused. An open client with a live handle gets that handle at once. Otherwise the call ends at the first wake-up that is closed, live or interrupted, with that outcome, and stays blocked iff there is none. Any handle returned is present and alive, and was seen while the client was not closed. |
| HandleAcquisition.ClosedWakeUpIsRefused | kiji-schema/src/main/java/org/kiji/schema/layout/impl/ZooKeeperClient.java:223-226 | A caller blocked waiting for a handle is refused at the first wake-up that finds the client closed. |
| HandleAcquisition.InterruptionEndsTheWait | kiji-schema/src/main/java/org/kiji/schema/layout/impl/ZooKeeperClient.java:235-236 | An interrupted wait surfaces as an interruption at once. It is neither retried nor turned into a refusal, whatever later wake-ups would have shown. |
| RetryPolicy.Retry | kiji-schema/src/main/java/org/kiji/schema/layout/impl/ZooKeeperClient.java:317-501 | A wrapped operation ends with the outcome of its first attempt that is not a connection loss, session expiry or session move, passed on unchanged. It keeps retrying iff every attempt was one of those three. It never surfaces one of them. |
| RetryPolicy.RetryLoop | kiji-schema/src/main/java/org/kiji/schema/layout/impl/ZooKeeperClient.java:317-332 | The iterative while-true loop computes the same result as the recursive description. |
| RetryPolicy.TransientPrefixIsInvisible | kiji-schema/src/main/java/org/kiji/schema/layout/impl/ZooKeeperClient.java:317-332 | Any run of transient failures before an attempt leaves the result unchanged, as if that attempt had been the first. |
| RetryPolicy.ThreeTransientFailuresThenSuccess | kiji-schema/src/main/java/org/kiji/schema/layout/impl/ZooKeeperClient.java:317-332 | A connection loss, a session expiry and a session move followed by a success return that success. |
| RetryPolicy.NothingAfterSettling | kiji-schema/src/main/java/org/kiji/schema/layout/impl/ZooKeeperClient.java:317-332 | Once an attempt settles the operation, no later attempt is made: appending attempts does not change the result. |
| Namespace.CreateNode | kiji-schema/src/main/java/org/kiji/schema/layout/impl/ZooKeeperClient.java:527-528 | A persistent create adds exactly the path iff the path is absent and its parent exists. Otherwise it fails with NodeExists (iff the path exists) or NoNode. |
| Namespace.Parent | kiji-schema/src/main/java/org/kiji/schema/layout/impl/ZooKeeperClient.java:520 | getParentFile drops exactly the last component: the parent is one component shorter, and appending that component gives back the path. |
| Namespace.CreateTolerant | kiji-schema/src/main/java/org/kiji/schema/layout/impl/ZooKeeperClient.java:524-535 | The final create step treats NodeExists as success. It fails only with NoNode, and a success leaves the namespace holding exactly one more path, or none if the path was already there. |
| Namespace.CreateNodeRecursively | kiji-schema/src/main/java/org/kiji/schema/layout/impl/ZooKeeperClient.java:509-536 | The call succeeds whenever the root exists, and fails only with NoNode. On success the path exists, unless it is the root. Nothing is removed, and only the path and its ancestors are added. |
| Namespace.CreatesExactlyTheAncestry | kiji-schema/src/main/java/org/kiji/schema/layout/impl/ZooKeeperClient.java:509-536 | On a well-formed namespace the result is the namespace plus the path and all its ancestors, and the result is well-formed again. |
| Namespace.CreateIsIdempotent | kiji-schema/src/main/java/org/kiji/schema/layout/impl/ZooKeeperClient.java:512-514 | A second call with the same path changes nothing. |
| Namespace.RootIsNoOp | kiji-schema/src/main/java/org/kiji/schema/layout/impl/ZooKeeperClient.java:516-519 | Creating the root leaves any namespace unchanged. |
| Namespace.CreatesNestedPathFromRoot | kiji-schema/src/main/java/org/kiji/schema/layout/impl/ZooKeeperClient.java:509-536 | "/a/b/c" on a namespace holding only the root creates "/a", "/a/b" and "/a/b/c". |
| ClientTrace.Apply | kiji-schema/src/main/java/org/kiji/schema/layout/impl/ZooKeeperClient.java:134-155 | Every call keeps the opened and closed flags one-way and keeps the client reachable: no negative count, closed only after opened, and a handle exactly while open. Only a release from count 1 closes the client, and a call takes the count from non-zero to zero iff it is that release. A count that is not positive never moves. A closed client creates no handle. |
| ClientTrace.RunPreservesInv | kiji-schema/src/main/java/org/kiji/schema/layout/impl/ZooKeeperClient.java:134-155 | Any sequence of calls keeps a reachable client reachable, and keeps its flags one-way. |
| ClientTrace.CloseAtMostOnce | kiji-schema/src/main/java/org/kiji/schema/layout/impl/ZooKeeperClient.java:266-274 | Whatever the calls, and even when some throw, close() is called at most once. It is called exactly once iff the run starts holding a reference and ends with count zero. A count that is not positive never moves, and a non-negative count stays non-negative. |
| ClientTrace.ClosedExactlyWhenCountIsZero | kiji-schema/src/main/java/org/kiji/schema/layout/impl/ZooKeeperClient.java:266-274 | Start from an open client with at least one reference, and take a run in which no call throws. The count stays non-negative, and the client ends closed iff its count is zero. close() has then been called exactly once. |
| ClientTrace.CloseHappensWhenCountFirstReachesZero | kiji-schema/src/main/java/org/kiji/schema/layout/impl/ZooKeeperClient.java:266-274 | In such a run, a call reaches close() iff it brings the count from non-zero to zero. |
| ClientTrace.ZeroIsAbsorbing | kiji-schema/src/main/java/org/kiji/schema/layout/impl/ZooKeeperClient.java:256-270 | At count zero a retain and a release are each refused and change nothing. From there the count stays zero through any run, and every retain and release in it throws. |
| ClientTrace.ClosedClientNeverReconnects | kiji-schema/src/main/java/org/kiji/schema/layout/impl/ZooKeeperClient.java:106-116 | A closed client keeps an empty handle slot and creates no handle, whatever calls or notifications follow. |
| ClientTrace.TypicalLifecycle | kiji-schema/src/main/java/org/kiji/schema/layout/impl/ZooKeeperClient.java:176-297 | Take open, retain, a lost session and two releases. The client ends closed with count 0 and an empty slot, after one close and no exceptions. Two handles were created along the way. |
| ClientTrace.ApplyAsWritten | kiji-schema/src/main/java/org/kiji/schema/layout/impl/ZooKeeperClient.java:176-297 | Each call as the code has it keeps the flags one-way. Whenever it returns normally, it does exactly what the corrected call does. |
| ClientTrace.RunAsWrittenAgrees | kiji-schema/src/main/java/org/kiji/schema/layout/impl/ZooKeeperClient.java:176-297 | A run of the code as written in which no call throws is the same run, with the same client, closes and faults, as through the corrected members. |
| ClientTrace.CloseSucceedsAtMostOnceAsWritten | kiji-schema/src/main/java/org/kiji/schema/layout/impl/ZooKeeperClient.java:280-283 | As written, and even when calls throw, close() returns normally at most once: every call of close() beyond one that sets the closed flag throws. |
| ClientTrace.RevivedClientReachesCloseTwice | kiji-schema/src/main/java/org/kiji/schema/layout/impl/ZooKeeperClient.java:256-283 | As written, open, release, two retains and two releases reach close() twice, and the second close() throws. The corrected calls refuse the retains and later releases, and reach close() once. |
| ClientTrace.ClosedExactlyWhenCountIsZeroAsWritten | kiji-schema/src/main/java/org/kiji/schema/layout/impl/ZooKeeperClient.java:256-274 | For the code as written: start from an open client with at least one reference, and take a run in which no call throws. The count stays non-negative, the client ends closed iff its count is zero, and close() has then been called exactly once. |
| ClientTrace.CloseHappensWhenCountFirstReachesZeroAsWritten | kiji-schema/src/main/java/org/kiji/schema/layout/impl/ZooKeeperClient.java:256-274 | For the code as written, in such a run, a call reaches close() iff it brings the count from non-zero to zero. |

The code's own text promises more than the code does in three places, and
the model follows the code:

- The checkState message of `retain` (lines 258-260) reads "Cannot retain
  closed ZooKeeperClient", yet the count is incremented before the check
  (finding 1).
- The checkState message of `release` (lines 268-270) reads "Cannot release
  closed ZooKeeperClient", yet the count is decremented before the check
  (finding 2).
- The Javadoc of `getZKClient(double)` (lines 211-214) says the call "fails
  and returns null" when no session is established in time. The loop never
  returns null: it only returns a live handle or throws.

## Findings

| source | as written | input that shows it | evidently intended | confidence | as-written member | corrected member |
|---|---|---|---|---|---|---|
| kiji-schema/src/main/java/org/kiji/schema/layout/impl/ZooKeeperClient.java:256-262 | `getAndIncrement` runs before the `counter >= 1` check, so a refused retain still raises the count | open a client, release its only reference (count 0, closed), then call retain twice: the first throws and leaves count 1, the second returns the closed client with count 2 | a retain after the count reached zero is always refused and leaves the count at zero | medium; not executed | Lifecycle.RetainRevivesReleasedClient | Lifecycle.RetainChecked |
| kiji-schema/src/main/java/org/kiji/schema/layout/impl/ZooKeeperClient.java:266-270 | `decrementAndGet` runs before the `counter >= 0` check, so a refused release still lowers the count | release a client whose count is already 0: it throws and leaves the count at -1 | the count never goes below zero | medium; not executed | Lifecycle.ReleaseDrivesCountNegative | Lifecycle.ReleaseChecked |
| kiji-schema/src/main/java/org/kiji/schema/layout/impl/ZooKeeperClient.java:106-116 | the debug line reads `mZKClient.getSessionId()` before the closed check, and `close()` has set `mZKClient` to null | open, release the last reference, then deliver an Expired session event (for instance from a handle replaced after an earlier Disconnected, which is never closed): the handler throws NullPointerException | after close, a lost session is logged and ignored | low; not executed | SessionWatcher.ExpiredAfterCloseDereferencesEmptySlot | SessionWatcher.ProcessGuarded |

## Left out
- Lifecycle.Retain: the count is an unbounded integer. The source's `AtomicInteger` wraps from 2147483647 to -2147483648 on `getAndIncrement`, which the model does not represent. Reaching that point takes over two billion outstanding references.
- Lifecycle.RetainChecked: the count is unbounded, for the same reason as Lifecycle.Retain.
- Lifecycle.Release: the count is an unbounded integer. `decrementAndGet` on a 32-bit `AtomicInteger` could wrap only after more than two billion refused releases, and the model does not represent that wrap.
- Lifecycle.ReleaseChecked: the count is unbounded, for the same reason as Lifecycle.Release.
- Threads, `synchronized`, `wait`/`notifyAll` and the atomics. Each operation is one sequential step. `notifyAll` on SyncConnected changes no state and is not modelled. `close()` has no `notifyAll`, so a caller already blocked in `getZKClient()` is not woken by close: it is refused only at a later wake-up that observes the closed client.
- HandleAcquisition.GetZKClient: the timed variant `getZKClient(double)` is left out. Its deadline uses floating-point seconds and the wall clock. Only the no-deadline loop is modelled, over a finite sequence of wake-ups. `Waiting` means the caller is still blocked.
- RetryPolicy.Retry: the loop retries without bound. The model sees a finite sequence of attempts, and `StillRetrying` stands for the loop going round again. The one-second `Time.sleep` between attempts is not modelled.
- The seven wrappers are modelled once, as `RetryPolicy.Retry` over the primitive's result type. How each passes its arguments (path string, data, ACL, mode, version, watcher, Stat) is not modelled, because it is a direct pass-through to ZooKeeper.
- The `IOException` from the ZooKeeper constructor (wrapped as `KijiIOException` in `createZKClient`): the constructor is network I/O. Handle creation always succeeds in the model.
- The `InterruptedException` from `ZooKeeper.close()` inside `close()`: it comes from the library's network shutdown.
- Handle liveness (`getState().isAlive()`) is an input to each observation, not derived from a model of the ZooKeeper connection state machine.
- RetryPolicy.KeeperCode: `OtherCode` carries only codes the type does not name. The model does not enforce this, since no operation builds a code from a number.
- Watches, `Stat` contents, ACLs and non-persistent create modes: these belong to the ZooKeeper library.
- Namespace.CreateNodeRecursively: its `exists` and `create` calls go through the retry wrappers. The namespace model uses their settled results directly. `RetryPolicy.TransientPrefixIsInvisible` covers the transient failures in between. The check that the created path equals the requested one (line 529) always holds for a persistent node and is not modelled. Other clients' concurrent changes to the namespace are not modelled.
- The `parent != null` test (line 521): an absolute path always has a parent until the root, which returns earlier. Relative paths and `java.io.File` normalisation are not modelled.
- Replacing the handle on Disconnected/Expired never closes the old ZooKeeper object. The model tracks only the current slot, so the leaked objects are not represented.
- `finalize`, `toString`, logging and the constructor's address and session-timeout parameters: these are garbage-collector behaviour, diagnostics and configuration.
- TestTableLayoutUpdateValidator.java is not part of this model. It tests a layout validator that needs a live Kiji instance.

=== FILE: client_trace.dfy ===
/**
  Sequences of calls on one client: open, retain, release and session
  notifications, applied one after another. A call that throws leaves the
  client as that call left it, and later calls go on from there (the caller
  may catch the exception).

  The runner uses the corrected retain, release and notification handling
  (checks made before the counter moves, no read of the empty handle slot).
 */
module ClientTrace {
  import opened Wrappers
  import opened Lifecycle
  import opened SessionWatcher

  datatype Call = OpenCall | RetainCall | ReleaseCall | Notify(event: Event)

  /** The client after a run, how many calls reached close(), and how many
      threw. */
  datatype Trace = Trace(client: Client, closes: nat, faults: nat)

  /** Whether a call reaches close(): release calls it when its decrement
      lands on zero, that is from a count of exactly one, whether or not close
      then succeeds. No other call of the client invokes close(). */
  predicate CallsClose(c: Client, call: Call) {
    call == ReleaseCall && c.retainCount == 1
  }

  /** One call. Every call keeps the flags one-way and keeps the client in a
      reachable state. */
  function Apply(c: Client, call: Call): (s: Step)
    ensures Monotone(c, s.client)
    ensures Inv(c) ==> Inv(s.client)
    ensures s.client.isClosed && !c.isClosed ==> CallsClose(c, call)
    ensures c.isClosed && c.isOpened ==> s.client.created == c.created
    ensures c.retainCount <= 0 ==> s.client.retainCount == c.retainCount
    ensures c.retainCount >= 0 ==> s.client.retainCount >= 0
    ensures c.retainCount != 0 && s.client.retainCount == 0 <==> CallsClose(c, call)
  {
    match call
    case OpenCall => Open(c)
    case RetainCall => RetainChecked(c)
    case ReleaseCall => ReleaseChecked(c)
    case Notify(e) => ProcessGuarded(c, e)
  }

  /** The calls applied in order; the last call is applied to the client the
      earlier ones produced. */
  function Run(c: Client, calls: seq<Call>): (t: Trace)
    decreases |calls|
  {
    if |calls| == 0 then
      Trace(c, 0, 0)
    else
      var t := Run(c, calls[..|calls| - 1]);
      var s := Apply(t.client, calls[|calls| - 1]);
      Trace(s.client,
            t.closes + (if CallsClose(t.client, calls[|calls| - 1]) then 1 else 0),
            t.faults + (if s.outcome.Threw? then 1 else 0))
  }

  /** Every run keeps the client reachable and the flags one-way. */
  lemma {:induction false} RunPreservesInv(c: Client, calls: seq<Call>)
    requires Inv(c)
    ensures Inv(Run(c, calls).client)
    ensures Monotone(c, Run(c, calls).client)
    decreases |calls|
  {
    if |calls| > 0 {
      RunPreservesInv(c, calls[..|calls| - 1]);
    }
  }

  /** Whatever the calls, and whether or not they throw, close() is called at
      most once: exactly once if the run starts holding a reference and ends
      holding none. A count that is not positive never moves, and a count that
      is not negative never becomes negative. */
  lemma {:induction false} CloseAtMostOnce(c: Client, calls: seq<Call>)
    ensures Run(c, calls).closes ==
      (if c.retainCount >= 1 && Run(c, calls).client.retainCount == 0 then 1 else 0)
    ensures c.retainCount <= 0 ==> Run(c, calls).client.retainCount == c.retainCount
    ensures c.retainCount >= 0 ==> Run(c, calls).client.retainCount >= 0
    decreases |calls|
  {
    if |calls| > 0 {
      CloseAtMostOnce(c, calls[..|calls| - 1]);
    }
  }

  /** The reference-counting theorem: starting from an open client holding at
      least one reference, a run in which no call throws ends closed exactly
      when its count is zero, and has then closed the client exactly once. */
  lemma {:induction false} ClosedExactlyWhenCountIsZero(c: Client, calls: seq<Call>)
    requires IsOpen(c) && c.retainCount >= 1
    requires Run(c, calls).faults == 0
    ensures Run(c, calls).client.retainCount >= 0
    ensures Run(c, calls).client.isOpened
    ensures Run(c, calls).client.isClosed <==> Run(c, calls).client.retainCount == 0
    ensures Run(c, calls).closes == (if Run(c, calls).client.retainCount == 0 then 1 else 0)
    decreases |calls|
  {
    CloseAtMostOnce(c, calls);
    if |calls| > 0 {
      ClosedExactlyWhenCountIsZero(c, calls[..|calls| - 1]);
    }
  }

  /** A prefix of a run has thrown no more often than the whole run. */
  lemma {:induction false} PrefixFaults(c: Client, calls: seq<Call>, n: nat)
    requires n <= |calls|
    ensures Run(c, calls[..n]).faults <= Run(c, calls).faults
    decreases |calls|
  {
    if n < |calls| {
      var front := calls[..|calls| - 1];
      assert front[..n] == calls[..n];
      PrefixFaults(c, front, n);
    } else {
      assert calls[..n] == calls;
    }
  }

  /** In a run in which no call throws, the close happens at the call that
      first brings the count to zero, and at no other call. */
  lemma CloseHappensWhenCountFirstReachesZero(c: Client, calls: seq<Call>, i: nat)
    requires IsOpen(c) && c.retainCount >= 1
    requires Run(c, calls).faults == 0
    requires i < |calls|
    ensures
      var before := Run(c, calls[..i]);
      var after := Run(c, calls[..i + 1]);
      after.closes == before.closes + 1 <==>
        before.client.retainCount != 0 && after.client.retainCount == 0
  {
    PrefixFaults(c, calls, i);
    PrefixFaults(c, calls, i + 1);
    ClosedExactlyWhenCountIsZero(c, calls[..i]);
    ClosedExactlyWhenCountIsZero(c, calls[..i + 1]);
  }

  /** How many retains and releases a sequence of calls holds. */
  function CountCalls(calls: seq<Call>): nat
    decreases |calls|
  {
    if |calls| == 0 then 0
    else
      CountCalls(calls[..|calls| - 1]) +
      (if calls[|calls| - 1] == RetainCall || calls[|calls| - 1] == ReleaseCall then 1 else 0)
  }

  /** Once the count is zero it stays zero: every later retain and every later
      release is refused. */
  lemma {:induction false} ZeroIsAbsorbing(c: Client, calls: seq<Call>)
    requires c.retainCount == 0
    ensures Apply(c, RetainCall) == Step(c, Threw(IllegalState))
    ensures Apply(c, ReleaseCall) == Step(c, Threw(IllegalState))
    ensures Run(c, calls).client.retainCount == 0
    ensures Run(c, calls).faults >= CountCalls(calls)
    decreases |calls|
  {
    if |calls| > 0 {
      ZeroIsAbsorbing(c, calls[..|calls| - 1]);
    }
  }

  /** After close no notification brings a session back: a closed client keeps
      an empty handle slot through any run. */
  lemma ClosedClientNeverReconnects(c: Client, calls: seq<Call>)
    requires Inv(c) && c.isClosed
    ensures Run(c, calls).client.isClosed
    ensures Run(c, calls).client.handle.None?
    ensures Run(c, calls).client.created == c.created
  {
    RunPreservesInv(c, calls);
    ClosedStaysWithoutNewHandles(c, calls);
  }

  /** A closed client creates no handle. */
  lemma {:induction false} ClosedStaysWithoutNewHandles(c: Client, calls: seq<Call>)
    requires c.isOpened && c.isClosed
    ensures Run(c, calls).client.created == c.created
    decreases |calls|
  {
    if |calls| > 0 {
      ClosedStaysWithoutNewHandles(c, calls[..|calls| - 1]);
      RunIsMonotone(c, calls[..|calls| - 1]);
    }
  }

  /** The opened and closed flags stay set through every run. */
  lemma {:induction false} RunIsMonotone(c: Client, calls: seq<Call>)
    ensures Monotone(c, Run(c, calls).client)
    decreases |calls|
  {
    if |calls| > 0 {
      RunIsMonotone(c, calls[..|calls| - 1]);
    }
  }

  /** A whole life: open, a retain, a session loss, and two releases close the
      client once, with a replaced handle that close then drops. */
  lemma TypicalLifecycle()
    ensures Run(New(), [OpenCall, RetainCall, Notify(Event(NoneType, None, Disconnected)),
                        ReleaseCall, ReleaseCall])
         == Trace(Client(0, true, true, None, 2), 1, 0)
  {
    var loss := Notify(Event(NoneType, None, Disconnected));
    var calls := [OpenCall, RetainCall, loss, ReleaseCall, ReleaseCall];
    var c1 := Client(1, true, false, Some(Handle(0)), 1);
    var c2 := Client(2, true, false, Some(Handle(0)), 1);
    var c3 := Client(2, true, false, Some(Handle(1)), 2);
    var c4 := Client(1, true, false, Some(Handle(1)), 2);
    assert calls[..1][..0] == [];
    assert Run(New(), calls[..1]) == Trace(c1, 0, 0);
    assert calls[..2][..1] == calls[..1];
    assert Run(New(), calls[..2]) == Trace(c2, 0, 0);
    assert calls[..3][..2] == calls[..2];
    assert Run(New(), calls[..3]) == Trace(c3, 0, 0);
    assert calls[..4][..3] == calls[..3];
    assert Run(New(), calls[..4]) == Trace(c4, 0, 0);
    assert calls[..4] == calls[..|calls| - 1];
  }

  /** One call through the members as the code has them: retain and release
      move the counter before checking it, and the notification handler reads
      the handle slot for its log lines. */
  function ApplyAsWritten(c: Client, call: Call): (s: Step)
    ensures Monotone(c, s.client)
    ensures s.outcome == Ok ==> s == Apply(c, call)
    ensures CallsClose(c, call) && c.isClosed ==> s.outcome.Threw?
    ensures CallsClose(c, call) && s.outcome == Ok ==> s.client.isClosed
  {
    match call
    case OpenCall => Open(c)
    case RetainCall => Retain(c)
    case ReleaseCall => Release(c)
    case Notify(e) => Process(c, e)
  }

  /** The calls applied in order through the members as the code has them. */
  function RunAsWritten(c: Client, calls: seq<Call>): (t: Trace)
    decreases |calls|
  {
    if |calls| == 0 then
      Trace(c, 0, 0)
    else
      var t := RunAsWritten(c, calls[..|calls| - 1]);
      var s := ApplyAsWritten(t.client, calls[|calls| - 1]);
      Trace(s.client,
            t.closes + (if CallsClose(t.client, calls[|calls| - 1]) then 1 else 0),
            t.faults + (if s.outcome.Threw? then 1 else 0))
  }

  /** A run of the code as written in which no call throws is the same run as
      through the corrected members. */
  lemma {:induction false} RunAsWrittenAgrees(c: Client, calls: seq<Call>)
    requires RunAsWritten(c, calls).faults == 0
    ensures RunAsWritten(c, calls) == Run(c, calls)
    decreases |calls|
  {
    if |calls| > 0 {
      RunAsWrittenAgrees(c, calls[..|calls| - 1]);
    }
  }

  /** A prefix of a run of the code as written has thrown no more often than
      the whole run. */
  lemma {:induction false} PrefixFaultsAsWritten(c: Client, calls: seq<Call>, n: nat)
    requires n <= |calls|
    ensures RunAsWritten(c, calls[..n]).faults <= RunAsWritten(c, calls).faults
    decreases |calls|
  {
    if n < |calls| {
      var front := calls[..|calls| - 1];
      assert front[..n] == calls[..n];
      PrefixFaultsAsWritten(c, front, n);
    } else {
      assert calls[..n] == calls;
    }
  }

  /** Even as written, close() returns normally at most once: once the
      closed flag is set, every further call of close() throws. */
  lemma {:induction false} CloseSucceedsAtMostOnceAsWritten(c: Client, calls: seq<Call>)
    ensures RunAsWritten(c, calls).closes <=
      RunAsWritten(c, calls).faults + (if !c.isClosed && RunAsWritten(c, calls).client.isClosed then 1 else 0)
    ensures c.isClosed ==> RunAsWritten(c, calls).client.isClosed
    decreases |calls|
  {
    if |calls| > 0 {
      CloseSucceedsAtMostOnceAsWritten(c, calls[..|calls| - 1]);
    }
  }

  /** As written, a released client revived by two retains reaches close()
      twice: the release that first brings the count to zero closes it, and
      the release that brings the revived count back to zero calls close()
      again, which throws. The corrected calls refuse both retains and both
      later releases, and reach close() once. */
  lemma RevivedClientReachesCloseTwice()
    ensures RunAsWritten(New(), [OpenCall, ReleaseCall, RetainCall, RetainCall, ReleaseCall, ReleaseCall])
         == Trace(Client(0, true, true, None, 1), 2, 2)
    ensures Run(New(), [OpenCall, ReleaseCall, RetainCall, RetainCall, ReleaseCall, ReleaseCall])
         == Trace(Client(0, true, true, None, 1), 1, 4)
  {
    var calls := [OpenCall, ReleaseCall, RetainCall, RetainCall, ReleaseCall, ReleaseCall];
    var live := Client(1, true, false, Some(Handle(0)), 1);
    var closed := Client(0, true, true, None, 1);
    assert calls[..1][..0] == [];
    assert calls[..2][..1] == calls[..1];
    assert calls[..3][..2] == calls[..2];
    assert calls[..4][..3] == calls[..3];
    assert calls[..5][..4] == calls[..4];
    assert calls[..5] == calls[..|calls| - 1];
    assert RunAsWritten(New(), calls[..1]) == Trace(live, 0, 0);
    assert RunAsWritten(New(), calls[..2]) == Trace(closed, 1, 0);
    assert RunAsWritten(New(), calls[..3]) == Trace(closed.(retainCount := 1), 1, 1);
    assert RunAsWritten(New(), calls[..4]) == Trace(closed.(retainCount := 2), 1, 1);
    assert RunAsWritten(New(), calls[..5]) == Trace(closed.(retainCount := 1), 1, 1);
    assert Run(New(), calls[..1]) == Trace(live, 0, 0);
    assert Run(New(), calls[..2]) == Trace(closed, 1, 0);
    assert Run(New(), calls[..3]) == Trace(closed, 1, 1);
    assert Run(New(), calls[..4]) == Trace(closed, 1, 2);
    assert Run(New(), calls[..5]) == Trace(closed, 1, 3);
  }

  /** The reference-counting theorem for the code as written: from an open
      client holding at least one reference, a run in which no call throws
      ends closed exactly when its count is zero, having closed once. */
  lemma ClosedExactlyWhenCountIsZeroAsWritten(c: Client, calls: seq<Call>)
    requires IsOpen(c) && c.retainCount >= 1
    requires RunAsWritten(c, calls).faults == 0
    ensures RunAsWritten(c, calls).client.retainCount >= 0
    ensures RunAsWritten(c, calls).client.isOpened
    ensures RunAsWritten(c, calls).client.isClosed <==> RunAsWritten(c, calls).client.retainCount == 0
    ensures RunAsWritten(c, calls).closes == (if RunAsWritten(c, calls).client.retainCount == 0 then 1 else 0)
  {
    RunAsWrittenAgrees(c, calls);
    ClosedExactlyWhenCountIsZero(c, calls);
  }

  /** For the code as written, in a run in which no call throws, the close
      happens at the call that first brings the count to zero. */
  lemma CloseHappensWhenCountFirstReachesZeroAsWritten(c: Client, calls: seq<Call>, i: nat)
    requires IsOpen(c) && c.retainCount >= 1
    requires RunAsWritten(c, calls).faults == 0
    requires i < |calls|
    ensures
      var before := RunAsWritten(c, calls[..i]);
      var after := RunAsWritten(c, calls[..i + 1]);
      after.closes == before.closes + 1 <==>
        before.client.retainCount != 0 && after.client.retainCount == 0
  {
    PrefixFaultsAsWritten(c, calls, i);
    PrefixFaultsAsWritten(c, calls, i + 1);
    ClosedExactlyWhenCountIsZeroAsWritten(c, calls[..i]);
    ClosedExactlyWhenCountIsZeroAsWritten(c, calls[..i + 1]);
  }
}

=== FILE: handle_acquisition.dfy ===
/**
  getZKClient with no deadline: wait until the client holds a live session
  handle, failing at once if the client is not opened or has been closed.

  The monitor wait becomes a sequence of wake-ups: each one is what the
  waiting thread sees when it re-acquires the lock (the client as it then is,
  and whether its handle reports itself alive), or an interruption of the
  wait. When the wake-ups run out before the loop settles, the caller is
  still waiting.
 */
module HandleAcquisition {
  import opened Wrappers
  import opened Lifecycle

  /** One re-check of the loop: the client and the liveness of its handle
      (ZooKeeper.getState().isAlive()), or an InterruptedException. */
  datatype View = Sees(client: Client, alive: bool) | WaitInterrupted

  /** How getZKClient ended: with a live handle, still blocked, refused by a
      checkState guard, or with a RuntimeInterruptedException. */
  datatype Acquired = Live(handle: Handle) | Waiting | Refused(fault: Fault) | Interrupted

  /** The slot holds a handle that reports itself alive. */
  predicate Ready(c: Client, alive: bool) {
    c.handle.Some? && alive
  }

  /** `h` is a live handle of a client that is not closed. */
  predicate LiveIn(c: Client, alive: bool, h: Handle) {
    !c.isClosed && alive && c.handle == Some(h)
  }

  /** A wake-up that ends the wait: an interruption, a closed client, or a
      live handle. */
  predicate Settles(v: View) {
    v.WaitInterrupted? || v.client.isClosed || Ready(v.client, v.alive)
  }

  /** What the loop returns at a wake-up that ends the wait. The closed check
      comes before the liveness check, so a closed client is refused even when
      its slot still holds a live handle. */
  function SettledAs(v: View): Acquired
    requires Settles(v)
  {
    if v.WaitInterrupted? then Interrupted
    else if v.client.isClosed then Refused(IllegalState)
    else Live(v.client.handle.value)
  }

  /** The body of the wait loop, from the closed check onwards. The wait ends
      at the first wake-up that settles it, with that wake-up's outcome. */
  function Poll(c: Client, alive: bool, wakes: seq<View>): (r: Acquired)
    ensures Settles(Sees(c, alive)) ==> r == SettledAs(Sees(c, alive))
    ensures !Settles(Sees(c, alive)) && !r.Waiting? ==>
      exists k :: 0 <= k < |wakes| && Settles(wakes[k]) && r == SettledAs(wakes[k]) &&
        forall j :: 0 <= j < k ==> !Settles(wakes[j])
    ensures c.isClosed ==> r == Refused(IllegalState)
    ensures !c.isClosed && Ready(c, alive) ==> r == Live(c.handle.value)
    ensures r.Live? ==>
      LiveIn(c, alive, r.handle) ||
      exists i :: 0 <= i < |wakes| && wakes[i].Sees? && LiveIn(wakes[i].client, wakes[i].alive, r.handle)
    ensures r.Waiting? <==>
      && !c.isClosed && !Ready(c, alive)
      && forall i :: 0 <= i < |wakes| ==>
           wakes[i].Sees? && !wakes[i].client.isClosed && !Ready(wakes[i].client, wakes[i].alive)
    ensures r.Refused? ==> r.fault == IllegalState
    ensures r.Interrupted? ==> exists i :: 0 <= i < |wakes| && wakes[i].WaitInterrupted?
    decreases |wakes|
  {
    if c.isClosed then
      Refused(IllegalState)
    else if Ready(c, alive) then
      Live(c.handle.value)
    else if |wakes| == 0 then
      Waiting
    else
      match wakes[0]
      case WaitInterrupted => Interrupted
      case Sees(next, nextAlive) =>
        var r := Poll(next, nextAlive, wakes[1..]);
        assert forall i :: 0 <= i < |wakes| - 1 ==> wakes[1..][i] == wakes[i + 1];
        r
  }

  /** getZKClient(): refused unless opened, then the wait loop. It returns only
      a present handle that reports itself alive, seen while the client was
      not closed. */
  function GetZKClient(c: Client, alive: bool, wakes: seq<View>): (r: Acquired)
    ensures !c.isOpened || c.isClosed ==> r == Refused(IllegalState)
    ensures IsOpen(c) && Ready(c, alive) ==> r == Live(c.handle.value)
    ensures IsOpen(c) && !Ready(c, alive) && !r.Waiting? ==>
      exists k :: 0 <= k < |wakes| && Settles(wakes[k]) && r == SettledAs(wakes[k]) &&
        forall j :: 0 <= j < k ==> !Settles(wakes[j])
    ensures r.Waiting? <==>
      && IsOpen(c) && !Ready(c, alive)
      && forall i :: 0 <= i < |wakes| ==> !Settles(wakes[i])
    ensures r.Live? ==>
      LiveIn(c, alive, r.handle) ||
      exists i :: 0 <= i < |wakes| && wakes[i].Sees? && LiveIn(wakes[i].client, wakes[i].alive, r.handle)
  {
    if !c.isOpened then Refused(IllegalState) else Poll(c, alive, wakes)
  }

  /** A wake-up that finds the client closed refuses the waiting caller
      instead of waiting on. Close itself wakes nobody: the refusal comes at
      whatever wake-up next observes the closed client. */
  lemma ClosedWakeUpIsRefused(c: Client, alive: bool, closing: Client, wakes: seq<View>)
    requires IsOpen(c) && !Ready(c, alive)
    requires closing.isClosed
    ensures GetZKClient(c, alive, [Sees(closing, false)] + wakes) == Refused(IllegalState)
  {
  }

  /** An interrupted wait surfaces as an interruption: it is not retried and
      not turned into a refusal, whatever later wake-ups would have shown. */
  lemma InterruptionEndsTheWait(c: Client, alive: bool, wakes: seq<View>)
    requires IsOpen(c) && !Ready(c, alive)
    ensures GetZKClient(c, alive, [WaitInterrupted] + wakes) == Interrupted
  {
  }
}

=== FILE: lifecycle.dfy ===
/**
  The reference-counted lifecycle of a ZooKeeperClient: construction, open,
  isOpen, retain, release and close.

  Every Preconditions.checkState guard of the client becomes an IllegalState
  outcome. Where the client changes a field before the guard that rejects the
  call (the atomic getAndIncrement, decrementAndGet and getAndSet), the
  returned client keeps that change, as the Java object does.
 */
module Lifecycle {
  import opened Wrappers

  /** One ZooKeeper session object. The client numbers the handles it creates,
      so a recreated session is a different handle from every earlier one. */
  datatype Handle = Handle(generation: nat)

  /** The runtime exceptions the client raises on its own account. */
  datatype Fault =
    | IllegalState          // a Preconditions.checkState guard failed
    | NullHandle            // the empty handle slot was dereferenced
    | UnexpectedEventState  // the session watcher received a state it has no case for

  /** Whether an operation returned normally or threw. */
  datatype Outcome = Ok | Threw(fault: Fault)

  /** The fields of a ZooKeeperClient that its behaviour depends on.
      `handle` is the session slot (null before open and after close);
      `created` counts the session handles made so far. */
  datatype Client = Client(
    retainCount: int,
    isOpened: bool,
    isClosed: bool,
    handle: Option<Handle>,
    created: nat)

  /** The client after an operation, and how the operation ended. */
  datatype Step = Step(client: Client, outcome: Outcome)

  /** isOpen(): opened and not yet closed. */
  predicate IsOpen(c: Client) {
    c.isOpened && !c.isClosed
  }

  /** The states a client reaches through the corrected operations: the
      count never goes negative, close only follows open, and a handle is
      present exactly while the client is open. */
  predicate Inv(c: Client) {
    && c.retainCount >= 0
    && (c.isClosed ==> c.isOpened)
    && (c.handle.Some? <==> IsOpen(c))
    && (c.handle.Some? ==> c.handle.value.generation < c.created)
  }

  /** The opened and closed flags only ever go from false to true, and
      handle numbers are never reused. */
  predicate Monotone(c: Client, c': Client) {
    && (c.isOpened ==> c'.isOpened)
    && (c.isClosed ==> c'.isClosed)
    && c.created <= c'.created
  }

  /** The constructor: one reference, neither opened nor closed, no session. */
  function New(): (c: Client)
    ensures c.retainCount == 1
    ensures !c.isOpened && !c.isClosed && !IsOpen(c)
    ensures c.handle == None
    ensures Inv(c)
  {
    Client(1, false, false, None, 0)
  }

  /** createZKClient: a fresh session object replaces whatever the slot held. */
  function CreateHandle(c: Client): (c': Client)
    ensures c'.handle.Some? && c'.created == c.created + 1
    ensures forall g: nat :: g < c.created ==> c'.handle != Some(Handle(g))
    ensures c'.(handle := c.handle, created := c.created) == c
  {
    c.(handle := Some(Handle(c.created)), created := c.created + 1)
  }

  /** open(): allowed once, and only while no session exists. The opened flag
      is set by the first guard even when the second guard then fails. */
  function Open(c: Client): (s: Step)
    ensures s.outcome == Ok <==> !c.isOpened && c.handle.None?
    ensures s.outcome != Ok ==> s.outcome == Threw(IllegalState) && s.client == c.(isOpened := true)
    ensures s.outcome == Ok ==>
      && s.client.isOpened
      && s.client.isClosed == c.isClosed
      && s.client.retainCount == c.retainCount
      && s.client.handle == Some(Handle(c.created))
      && s.client.created == c.created + 1
    ensures Inv(c) && s.outcome == Ok ==> IsOpen(s.client)
    ensures Monotone(c, s.client)
    ensures Inv(c) ==> Inv(s.client)
  {
    if c.isOpened then
      Step(c, Threw(IllegalState))
    else if c.handle.Some? then
      Step(c.(isOpened := true), Threw(IllegalState))
    else
      Step(CreateHandle(c.(isOpened := true)), Ok)
  }

  /** close(): only after open and only once; afterwards the session slot is
      empty, whether or not it held a handle. */
  function Close(c: Client): (s: Step)
    ensures s.outcome == Ok <==> IsOpen(c)
    ensures s.outcome == Ok ==> s.client == c.(isClosed := true, handle := None)
    ensures s.outcome != Ok ==> s == Step(c, Threw(IllegalState))
    ensures !IsOpen(s.client)
    ensures Monotone(c, s.client)
    ensures Inv(c) ==> Inv(s.client)
  {
    if !c.isOpened then
      Step(c, Threw(IllegalState))
    else if c.isClosed then
      Step(c, Threw(IllegalState))
    else if c.handle.None? then
      Step(c.(isClosed := true), Ok)
    else
      Step(c.(isClosed := true, handle := None), Ok)
  }

  /** retain() as written: the count is incremented before it is checked, so a
      rejected retain still leaves the count one higher. */
  function Retain(c: Client): (s: Step)
    ensures s.outcome == Ok <==> c.retainCount >= 1
    ensures s.outcome != Ok ==> s.outcome == Threw(IllegalState)
    ensures s.client.retainCount == c.retainCount + 1
    ensures s.client.(retainCount := c.retainCount) == c
  {
    var counter := c.retainCount;
    Step(c.(retainCount := counter + 1), if counter >= 1 then Ok else Threw(IllegalState))
  }

  /** retain() with the check made before the increment: a rejected retain
      leaves the client as it was. */
  function RetainChecked(c: Client): (s: Step)
    ensures s.outcome == Ok <==> c.retainCount >= 1
    ensures s.outcome == Ok ==> s.client == c.(retainCount := c.retainCount + 1)
    ensures s.outcome != Ok ==> s == Step(c, Threw(IllegalState))
    ensures Monotone(c, s.client)
    ensures Inv(c) ==> Inv(s.client)
  {
    if c.retainCount < 1 then Step(c, Threw(IllegalState)) else Retain(c)
  }

  /** release() as written: the count is decremented before it is checked; the
      release that brings it to exactly zero closes the client. */
  function Release(c: Client): (s: Step)
    ensures s.client.retainCount == c.retainCount - 1
    ensures s.outcome == Ok <==> c.retainCount > 1 || (c.retainCount == 1 && IsOpen(c))
    ensures s.outcome != Ok ==> s.outcome == Threw(IllegalState)
    ensures s.client.isOpened == c.isOpened && s.client.created == c.created
    ensures s.client.isClosed <==> c.isClosed || (c.retainCount == 1 && c.isOpened)
    ensures c.retainCount == 1 && IsOpen(c) ==> s.client.handle.None?
    ensures s.client.handle.Some? ==> s.client.handle == c.handle
    ensures c.retainCount != 1 ==> s.client == c.(retainCount := c.retainCount - 1)
    ensures c.retainCount >= 1 && Inv(c) ==> Inv(s.client)
  {
    var counter := c.retainCount - 1;
    var c' := c.(retainCount := counter);
    if counter < 0 then
      Step(c', Threw(IllegalState))
    else if counter == 0 then
      Close(c')
    else
      Step(c', Ok)
  }

  /** release() with the check made before the decrement: the count of a
      client that starts non-negative never goes below zero. */
  function ReleaseChecked(c: Client): (s: Step)
    ensures s.outcome == Ok <==> c.retainCount > 1 || (c.retainCount == 1 && IsOpen(c))
    ensures c.retainCount < 1 ==> s == Step(c, Threw(IllegalState))
    ensures c.retainCount >= 1 ==> s.client.retainCount == c.retainCount - 1
    ensures c.retainCount >= 0 ==> s.client.retainCount >= 0
    ensures s.client.isClosed <==> c.isClosed || (c.retainCount == 1 && c.isOpened)
    ensures Monotone(c, s.client)
    ensures Inv(c) ==> Inv(s.client)
  {
    if c.retainCount < 1 then Step(c, Threw(IllegalState)) else Release(c)
  }

  /** A release undoes a successful retain exactly. */
  lemma ReleaseUndoesRetain(c: Client)
    requires c.retainCount >= 1
    ensures RetainChecked(c).outcome == Ok
    ensures ReleaseChecked(RetainChecked(c).client) == Step(c, Ok)
  {
  }

  /** A second open is refused and changes nothing. */
  lemma OpenTwiceFails(c: Client)
    requires Open(c).outcome == Ok
    ensures Open(Open(c).client) == Step(Open(c).client, Threw(IllegalState))
  {
  }

  /** A second close is refused and changes nothing. */
  lemma CloseTwiceFails(c: Client)
    requires Close(c).outcome == Ok
    ensures Close(Close(c).client) == Step(Close(c).client, Threw(IllegalState))
  {
  }

  /** Releasing the only reference of a client that was never opened reaches
      close() before open() and is refused. */
  lemma LastReleaseOfUnopenedClientFails()
    ensures Release(New()) == Step(New().(retainCount := 0), Threw(IllegalState))
    ensures ReleaseChecked(New()) == Release(New())
  {
  }

  /** The retain of the code as written revives a released client: the first
      retain after the count reached zero is refused but bumps the count to
      one, so the second one succeeds on a closed client. */
  lemma RetainRevivesReleasedClient()
    ensures
      var released := Release(Open(New()).client);
      var first := Retain(released.client);
      var second := Retain(first.client);
      && released == Step(Client(0, true, true, None, 1), Ok)
      && first.outcome == Threw(IllegalState)
      && second.outcome == Ok
      && second.client == Client(2, true, true, None, 1)
  {
  }

  /** With the check made first, a retain after the count reached zero is
      refused and leaves the client as it was, so a second retain is refused
      too. */
  lemma RetainCheckedAfterZeroAlwaysFails(c: Client)
    requires c.retainCount == 0
    ensures RetainChecked(c) == Step(c, Threw(IllegalState))
    ensures RetainChecked(RetainChecked(c).client) == Step(c, Threw(IllegalState))
  {
  }

  /** The release of the code as written drives the count of a released
      client below zero. */
  lemma ReleaseDrivesCountNegative()
    ensures
      var released := Release(Open(New()).client);
      var again := Release(released.client);
      && again.outcome == Threw(IllegalState)
      && again.client.retainCount == -1
  {
  }

  /** isOpen() over a whole life: false for a new client, true once it is
      opened, and false again for good once the last release has closed it. */
  lemma IsOpenAcrossLifecycle()
    ensures !IsOpen(New())
    ensures IsOpen(Open(New()).client)
    ensures !IsOpen(Release(Open(New()).client).client)
    ensures forall c: Client :: c.isClosed ==> !IsOpen(Open(c).client) && !IsOpen(Retain(c).client)
  {
  }
}

=== FILE: namespace.dfy ===
/**
  createNodeRecursively over an abstract ZooKeeper namespace.

  A path is the sequence of its components ("/a/b" is ["a", "b"]); the root
  "/" is the empty sequence, and the parent of a path (File.getParentFile)
  drops its last component. The namespace is the set of paths that exist.
 */
module Namespace {
  import opened Wrappers
  import opened RetryPolicy

  type Path = seq<string>

  const Root: Path := []

  /** getParentFile: drop the last component. */
  function Parent(p: Path): (q: Path)
    requires p != Root
    ensures |q| == |p| - 1
    ensures q + [p[|p| - 1]] == p
  {
    p[..|p| - 1]
  }

  /** The path and every ancestor of it, root included. */
  function Ancestry(p: Path): set<Path> {
    set i | 0 <= i <= |p| :: p[..i]
  }

  /** A namespace ZooKeeper can hold: the root exists and every other node's
      parent exists. */
  predicate WellFormed(ns: set<Path>) {
    Root in ns && forall q :: q in ns && q != Root ==> Parent(q) in ns
  }

  /** ZooKeeper's create(path, EMPTY_BYTES, OPEN_ACL_UNSAFE, PERSISTENT): fails
      with NodeExists when the node exists and with NoNode when its parent
      does not. */
  function CreateNode(ns: set<Path>, p: Path): (r: Result<set<Path>, KeeperCode>)
    requires p != Root
    ensures r.Success? <==> p !in ns && Parent(p) in ns
    ensures r.Success? ==> r.value == ns + {p}
    ensures r.Failure? ==> (r.error == NodeExists <==> p in ns)
    ensures r.Failure? ==> r.error == NodeExists || r.error == NoNode
  {
    if p in ns then Failure(NodeExists)
    else if Parent(p) !in ns then Failure(NoNode)
    else Success(ns + {p})
  }

  /** The final create step of createNodeRecursively: a NodeExists failure, a
      concurrent creator having won the race, counts as success. */
  function CreateTolerant(ns: set<Path>, p: Path): (r: Result<set<Path>, KeeperCode>)
    requires p != Root
    ensures r.Success? <==> Parent(p) in ns || p in ns
    ensures r.Success? ==> r.value == ns + {p}
    ensures r.Failure? ==> r.error == NoNode
  {
    match CreateNode(ns, p)
    case Success(ns') => Success(ns')
    case Failure(NodeExists) => Success(ns)
    case Failure(e) => Failure(e)
  }

  /** createNodeRecursively: nothing to do when the path exists or is the root;
      otherwise make sure the parent exists, then create the path. It only
      ever adds the path and ancestors of it, and it succeeds whenever the
      root exists. */
  function CreateNodeRecursively(ns: set<Path>, p: Path): (r: Result<set<Path>, KeeperCode>)
    ensures Root in ns ==> r.Success?
    ensures r.Failure? ==> r.error == NoNode
    ensures r.Success? ==> ns <= r.value <= ns + Ancestry(p)
    ensures r.Success? ==> p in r.value || p == Root
    decreases |p|
  {
    if p in ns then
      Success(ns)
    else if p == Root then
      Success(ns)
    else
      match CreateNodeRecursively(ns, Parent(p))
      case Failure(e) => Failure(e)
      case Success(ns') =>
        AncestryOfChild(p);
        CreateTolerant(ns', p)
  }

  /** The ancestry of a path is its parent's ancestry plus the path itself. */
  lemma AncestryOfChild(p: Path)
    requires p != Root
    ensures Ancestry(p) == Ancestry(Parent(p)) + {p}
  {
    forall q | q in Ancestry(p)
      ensures q in Ancestry(Parent(p)) + {p}
    {
      var i :| 0 <= i <= |p| && q == p[..i];
      if i < |p| {
        assert q == Parent(p)[..i];
      } else {
        assert q == p;
      }
    }
    forall q | q in Ancestry(Parent(p))
      ensures q in Ancestry(p)
    {
      var i :| 0 <= i <= |Parent(p)| && q == Parent(p)[..i];
      assert q == p[..i];
    }
    assert p == p[..|p|];
  }

  /** In a well-formed namespace every ancestor of an existing node exists. */
  lemma {:induction false} AncestorsOfExistingNodeExist(ns: set<Path>, p: Path)
    requires WellFormed(ns) && p in ns
    ensures Ancestry(p) <= ns
    decreases |p|
  {
    if p == Root {
      forall q | q in Ancestry(p)
        ensures q in ns
      {
        assert q == Root;
      }
    } else {
      AncestorsOfExistingNodeExist(ns, Parent(p));
      AncestryOfChild(p);
    }
  }

  /** On a well-formed namespace, createNodeRecursively adds exactly the
      missing ancestors of the path and the path itself, and leaves the
      namespace well-formed. */
  lemma {:induction false} CreatesExactlyTheAncestry(ns: set<Path>, p: Path)
    requires WellFormed(ns)
    ensures CreateNodeRecursively(ns, p) == Success(ns + Ancestry(p))
    ensures WellFormed(ns + Ancestry(p))
    decreases |p|
  {
    if p in ns {
      AncestorsOfExistingNodeExist(ns, p);
      assert ns + Ancestry(p) == ns;
    } else if p == Root {
      assert false;
    } else {
      CreatesExactlyTheAncestry(ns, Parent(p));
      AncestryOfChild(p);
      var ns' := ns + Ancestry(Parent(p));
      assert Parent(p) in ns' by {
        assert Parent(p) == Parent(p)[..|Parent(p)|];
      }
      assert ns' + {p} == ns + Ancestry(p);
    }
  }

  /** A second call with the same path finds it and changes nothing. */
  lemma CreateIsIdempotent(ns: set<Path>, p: Path)
    requires CreateNodeRecursively(ns, p).Success?
    ensures
      var ns' := CreateNodeRecursively(ns, p).value;
      CreateNodeRecursively(ns', p) == Success(ns')
  {
  }

  /** The root is never created: the call leaves any namespace as it is. */
  lemma RootIsNoOp(ns: set<Path>)
    ensures CreateNodeRecursively(ns, Root) == Success(ns)
  {
  }

  /** createNodeRecursively("/a/b/c") on a namespace holding only the root
      creates "/a", "/a/b" and "/a/b/c". */
  lemma CreatesNestedPathFromRoot()
    ensures CreateNodeRecursively({Root}, ["a", "b", "c"])
         == Success({Root, ["a"], ["a", "b"], ["a", "b", "c"]})
  {
    var p: Path := ["a", "b", "c"];
    CreatesExactlyTheAncestry({Root}, p);
    assert p[..0] == Root && p[..1] == ["a"] && p[..2] == ["a", "b"] && p[..3] == p;
    forall q | q in Ancestry(p)
      ensures q in {Root, ["a"], ["a", "b"], ["a", "b", "c"]}
    {
      var i :| 0 <= i <= |p| && q == p[..i];
      assert i == 0 || i == 1 || i == 2 || i == 3;
    }
    assert Ancestry(p) == {Root, ["a"], ["a", "b"], ["a", "b", "c"]};
    assert {Root} + Ancestry(p) == {Root, ["a"], ["a", "b"], ["a", "b", "c"]};
  }
}

=== FILE: retry_policy.dfy ===
/**
  The retry loop shared by create, both exists overloads, getData, setData,
  getChildren and delete: acquire a live handle, call the ZooKeeper
  primitive, and go round again (after a fixed one-second sleep) on a
  connection loss, an expired session or a moved session. Anything else ends
  the loop.

  The loop is modelled once, over the finite sequence of outcomes its
  successive attempts produce; the result type parameter stands for what the
  wrapped primitive returns (a created path, a Stat, bytes, children, or
  nothing for delete).
 */
module RetryPolicy {
  import opened Lifecycle

  /** KeeperException.Code: the three connection-related codes the wrappers
      catch, the common semantic ones, and the numeric code of any other.
      `OtherCode` stands only for codes not named here: a named code is never
      written as its number (ConnectionLoss is never `OtherCode(-4)`), so each
      code has one representation. */
  datatype KeeperCode =
    | ConnectionLoss
    | SessionExpired
    | SessionMoved
    | NoNode
    | NodeExists
    | BadVersion
    | NotEmpty
    | NoChildrenForEphemerals
    | NoAuth
    | InvalidAcl
    | OtherCode(code: int)

  /** The codes the wrappers catch and retry. */
  predicate IsTransient(k: KeeperCode) {
    k == ConnectionLoss || k == SessionExpired || k == SessionMoved
  }

  /** What one pass through a wrapper's loop body produced. */
  datatype Attempt<T> =
    | Returned(value: T)            // the primitive returned
    | KeeperFailure(code: KeeperCode)
    | Interruption                  // InterruptedException from the primitive or from the wait for a handle
    | ClientFault(fault: Fault)     // getZKClient's guard: the client is not opened or already closed

  /** How a wrapped operation ends; `StillRetrying` when every attempt seen so
      far was transient and the loop goes round again. */
  datatype Settled<T> =
    | Completed(value: T)
    | Raised(code: KeeperCode)
    | RuntimeInterrupted
    | Aborted(fault: Fault)
    | StillRetrying

  /** An attempt the loop catches and retries. */
  predicate Retries<T>(a: Attempt<T>) {
    a.KeeperFailure? && IsTransient(a.code)
  }

  /** The result a non-retried attempt hands to the caller unchanged. */
  function Settle<T>(a: Attempt<T>): Settled<T>
    requires !Retries(a)
  {
    match a
    case Returned(v) => Completed(v)
    case KeeperFailure(k) => Raised(k)
    case Interruption => RuntimeInterrupted
    case ClientFault(f) => Aborted(f)
  }

  /** The wrapper loop: the outcome of the first attempt that is not a
      transient failure, passed on unchanged. */
  function Retry<T>(attempts: seq<Attempt<T>>): (r: Settled<T>)
    ensures r.StillRetrying? <==> forall i :: 0 <= i < |attempts| ==> Retries(attempts[i])
    ensures !r.StillRetrying? ==>
      exists i :: 0 <= i < |attempts| && !Retries(attempts[i]) && r == Settle(attempts[i]) &&
        forall j :: 0 <= j < i ==> Retries(attempts[j])
    ensures r.Raised? ==> !IsTransient(r.code)
    decreases |attempts|
  {
    if |attempts| == 0 then
      StillRetrying
    else
      match attempts[0]
      case Returned(v) => Completed(v)
      case Interruption => RuntimeInterrupted
      case ClientFault(f) => Aborted(f)
      case KeeperFailure(k) =>
        if IsTransient(k) then
          var r := Retry(attempts[1..]);
          assert forall i :: 0 <= i < |attempts| - 1 ==> attempts[1..][i] == attempts[i + 1];
          r
        else
          Raised(k)
  }

  /** The while (true) loop itself, one attempt per iteration. */
  method RetryLoop<T>(attempts: seq<Attempt<T>>) returns (r: Settled<T>)
    ensures r == Retry(attempts)
  {
    var i := 0;
    while i < |attempts|
      invariant 0 <= i <= |attempts|
      invariant Retry(attempts[i..]) == Retry(attempts)
    {
      match attempts[i] {
        case Returned(v) =>
          return Completed(v);
        case Interruption =>
          return RuntimeInterrupted;
        case ClientFault(f) =>
          return Aborted(f);
        case KeeperFailure(k) =>
          if !IsTransient(k) {
            return Raised(k);
          }
      }
      assert attempts[i..][1..] == attempts[i + 1..];
      i := i + 1;
    }
    return StillRetrying;
  }

  /** Transient failures before an attempt are invisible to the caller: the
      operation ends exactly as if the later attempt had been the first. */
  lemma {:induction false} TransientPrefixIsInvisible<T>(prefix: seq<Attempt<T>>, rest: seq<Attempt<T>>)
    requires forall i :: 0 <= i < |prefix| ==> Retries(prefix[i])
    ensures Retry(prefix + rest) == Retry(rest)
    decreases |prefix|
  {
    if |prefix| > 0 {
      assert (prefix + rest)[0] == prefix[0];
      assert (prefix + rest)[1..] == prefix[1..] + rest;
      TransientPrefixIsInvisible(prefix[1..], rest);
    } else {
      assert prefix + rest == rest;
    }
  }

  /** Three consecutive transient failures and then a success return that
      success, with no error surfaced. */
  lemma ThreeTransientFailuresThenSuccess<T>(v: T, later: seq<Attempt<T>>)
    ensures Retry([KeeperFailure(ConnectionLoss), KeeperFailure(SessionExpired),
                   KeeperFailure(SessionMoved), Returned(v)] + later) == Completed(v)
  {
    var prefix: seq<Attempt<T>> :=
      [KeeperFailure(ConnectionLoss), KeeperFailure(SessionExpired), KeeperFailure(SessionMoved)];
    assert [KeeperFailure(ConnectionLoss), KeeperFailure(SessionExpired),
            KeeperFailure(SessionMoved), Returned(v)] + later == prefix + ([Returned(v)] + later);
    TransientPrefixIsInvisible(prefix, [Returned(v)] + later);
  }

  /** No attempt after a non-transient one is ever made: what follows it
      cannot change the result. */
  lemma {:induction false} NothingAfterSettling<T>(attempts: seq<Attempt<T>>, later: seq<Attempt<T>>)
    requires !Retry(attempts).StillRetrying?
    ensures Retry(attempts + later) == Retry(attempts)
    decreases |attempts|
  {
    assert |attempts| > 0;
    assert (attempts + later)[0] == attempts[0];
    if Retries(attempts[0]) {
      assert (attempts + later)[1..] == attempts[1..] + later;
      NothingAfterSettling(attempts[1..], later);
    }
  }
}

=== FILE: session_watcher.dfy ===
/**
  SessionWatcher.process: how the client reacts to ZooKeeper session
  notifications, as a transition from (client, event) to a new client or a
  thrown exception.
 */
module SessionWatcher {
  import opened Wrappers
  import opened Lifecycle

  /** Watcher.Event.EventType; `NoneType` is ZooKeeper's `None`, the type of
      session-state notifications. */
  datatype EventType = NoneType | NodeCreated | NodeDeleted | NodeDataChanged | NodeChildrenChanged

  /** Watcher.Event.KeeperState. */
  datatype KeeperState =
    | Unknown
    | Disconnected
    | NoSyncConnected
    | SyncConnected
    | AuthFailed
    | ConnectedReadOnly
    | SaslAuthenticated
    | Expired

  /** A WatchedEvent: its type, the node path it is about (null for session
      notifications) and the session state. */
  datatype Event = Event(kind: EventType, path: Option<string>, state: KeeperState)

  /** Only events of type None without a path are session notifications;
      every other event is logged as unexpected and ignored. */
  predicate IsSessionEvent(e: Event) {
    e.kind == NoneType && e.path.None?
  }

  /** The session died: the handle must be replaced. */
  predicate IsSessionLoss(k: KeeperState) {
    k == Disconnected || k == Expired
  }

  /** Logged as an error, otherwise ignored. */
  predicate IsNonActionable(k: KeeperState) {
    k == AuthFailed || k == ConnectedReadOnly || k == SaslAuthenticated
  }

  /** States the switch has no case for: a fatal internal error. */
  predicate IsUnhandled(k: KeeperState) {
    k == Unknown || k == NoSyncConnected
  }

  /** process() as written. The log lines of the SyncConnected case (when not
      closed) and of the Disconnected/Expired case read the session id of the
      current handle, so they dereference the slot even when it is empty; in
      the Disconnected/Expired case that read comes before the opened and
      closed checks. */
  function Process(c: Client, e: Event): (s: Step)
    ensures !IsSessionEvent(e) ==> s == Step(c, Ok)
    ensures IsSessionEvent(e) && IsNonActionable(e.state) ==> s == Step(c, Ok)
    ensures IsSessionEvent(e) && IsUnhandled(e.state) ==> s == Step(c, Threw(UnexpectedEventState))
    ensures s.client.isOpened == c.isOpened && s.client.isClosed == c.isClosed
    ensures s.client.retainCount == c.retainCount
    ensures s.client.created > c.created <==>
      IsSessionEvent(e) && IsSessionLoss(e.state) && c.handle.Some? && IsOpen(c)
    ensures s.client.created == c.created ==> s.client == c
    ensures s.client.created > c.created ==> s.client.handle == Some(Handle(c.created))
    ensures s.outcome == Threw(NullHandle) <==>
      IsSessionEvent(e) && c.handle.None? &&
      ((e.state == SyncConnected && !c.isClosed) || IsSessionLoss(e.state))
    ensures IsSessionEvent(e) && e.state == SyncConnected ==>
      s == Step(c, if !c.isClosed && c.handle.None? then Threw(NullHandle) else Ok)
    ensures IsSessionEvent(e) && IsSessionLoss(e.state) && c.handle.Some? && !c.isOpened ==>
      s == Step(c, Threw(IllegalState))
    ensures Inv(c) ==> Inv(s.client)
  {
    if e.kind != NoneType then
      Step(c, Ok)
    else if e.path.Some? then
      Step(c, Ok)
    else
      match e.state
      case SyncConnected =>
        if !c.isClosed && c.handle.None? then Step(c, Threw(NullHandle)) else Step(c, Ok)
      case AuthFailed | ConnectedReadOnly | SaslAuthenticated =>
        Step(c, Ok)
      case Disconnected | Expired =>
        if c.handle.None? then Step(c, Threw(NullHandle))
        else if !c.isOpened then Step(c, Threw(IllegalState))
        else if !c.isClosed then Step(CreateHandle(c), Ok)
        else Step(c, Ok)
      case Unknown | NoSyncConnected =>
        Step(c, Threw(UnexpectedEventState))
  }

  /** process() with the session id left out of the log lines, so that a
      notification reaching a closed client is ignored as intended. A lost
      session requires an opened client and is recreated exactly when the
      client is not closed. */
  function ProcessGuarded(c: Client, e: Event): (s: Step)
    ensures !IsSessionEvent(e) ==> s == Step(c, Ok)
    ensures s.outcome.Threw? <==>
      IsSessionEvent(e) && (IsUnhandled(e.state) || (IsSessionLoss(e.state) && !c.isOpened))
    ensures s.outcome.Threw? ==>
      s.outcome.fault == (if IsUnhandled(e.state) then UnexpectedEventState else IllegalState)
    ensures s.client.created > c.created <==> IsSessionEvent(e) && IsSessionLoss(e.state) && IsOpen(c)
    ensures s.client.created > c.created ==>
      s.client == c.(handle := Some(Handle(c.created)), created := c.created + 1)
    ensures s.client.created == c.created ==> s.client == c
    ensures Monotone(c, s.client)
    ensures Inv(c) ==> Inv(s.client)
  {
    if e.kind != NoneType then
      Step(c, Ok)
    else if e.path.Some? then
      Step(c, Ok)
    else
      match e.state
      case SyncConnected =>
        Step(c, Ok)
      case AuthFailed | ConnectedReadOnly | SaslAuthenticated =>
        Step(c, Ok)
      case Disconnected | Expired =>
        if !c.isOpened then Step(c, Threw(IllegalState))
        else if !c.isClosed then Step(CreateHandle(c), Ok)
        else Step(c, Ok)
      case Unknown | NoSyncConnected =>
        Step(c, Threw(UnexpectedEventState))
  }

  /** The two readings differ only when the handle slot is empty, so they
      agree on every reachable open client (whose slot `Inv` keeps filled). */
  lemma ProcessAgreesWhileHandlePresent(c: Client, e: Event)
    requires c.handle.Some?
    ensures Process(c, e) == ProcessGuarded(c, e)
  {
  }

  /** As written, an Expired notification after the last release has closed
      the client dereferences the emptied slot; the guarded reading ignores it. */
  lemma ExpiredAfterCloseDereferencesEmptySlot()
    ensures
      var closed := Release(Open(New()).client).client;
      var expired := Event(NoneType, None, Expired);
      && closed.isClosed && closed.handle.None?
      && Process(closed, expired) == Step(closed, Threw(NullHandle))
      && ProcessGuarded(closed, expired) == Step(closed, Ok)
  {
  }
}

=== FILE: wrappers.dfy ===
/** The failure-carrying types the client model returns. */
module Wrappers {

  /** A value that may be absent; Java's nullable references. */
  datatype Option<+T> = None | Some(value: T)

  /** A value, or the error an operation raised instead. */
  datatype Result<+R, +E> = Success(value: R) | Failure(error: E)
}
